=== FILE: README.md ===
# Grocery lists: a Dafny model of the list API and the home page

This project models the core of a small grocery-list web application: the
collection endpoint for lists (`GET` and `POST /api/grocery_list`), the
browser-side API client that builds every request URL, the list card that
shows item counts and lets the user rename or delete a list, and the home
page that fetches all lists and shows the totals.

Everything is pure functions over immutable datatypes:

- `Base` — `Option` and `Result`.
- `Text` — the JavaScript string operations the app depends on:
  `String.prototype.trim` (with the ECMAScript whitespace set), decimal text
  of integers, `join` and `split` on one character.
- `FormUrl` — query strings as `URLSearchParams` writes and reads them (the
  application/x-www-form-urlencoded serializer of the WHATWG URL Standard,
  its parser, `get`, and the query part of a URL: what follows the first
  `?` when no `#` comes before it, up to any `#`).
- `Grocery` — the shared shapes: items, lists, the `{success, message, data,
  count, error}` envelope, an HTTP response.
- `ListRoute` — the two handlers. The database is an abstract store: a
  sequence of `(id, name, items)` rows and an auto-increment counter. A
  failing database call or a failing body parse is an explicit `Fault`
  argument, so every error path of the handlers is a case of the model.
- `Client` — the `groceryListsApi` and `groceryItemsApi` request builders
  and `handleApiResponse`; the reply of `fetch` is an argument.
- `Card` — the list card: counts, label, progress, and the save, cancel and
  delete handlers as state transitions.
- `Home` — the home page: its state, the fetch handler, the statistics and
  which screen it renders; and lemmas that connect the page's request,
  through the client and the handler, to what the page ends up showing.

Behaviour modelled as the handler has it, although the rest of the
application evidently intends otherwise: the `POST` handler only rejects a
name that is missing, not a string, or the empty string; a name made only
of whitespace passes the check and is stored as the empty string after
trimming (`ListRoute.PostStoresTrimmed`). The browser side refuses such
names before sending them (components/AddList.tsx:18 for a new list,
components/GroceryListCard.tsx:22 for a rename, the latter modelled by
`Card.Save`), so only a client other than these forms can store a blank
name. The model does what the handler does.

## Model

| member | source | states |
|---|---|---|
| ListRoute.Get | app/api/grocery_list/route.ts:7-34 | success exactly without a fault; a fault gives 500 with "Failed to fetch grocery lists" and no data; otherwise 200, `count` equals the number of lists returned, and the data lists every stored row, in ascending (strictly, for a valid store) id order, with items exactly when asked |
| ListRoute.IncludeItemsIff | app/api/grocery_list/route.ts:9-10 | items are included exactly when the first `include_items` parameter has the value "true"; any other value or its absence means no items |
| ListRoute.SortById | app/api/grocery_list/route.ts:16-18 | the result is a permutation of the rows in which ids never decrease |
| ListRoute.FindMany | app/api/grocery_list/route.ts:12-19 | the listing is a permutation of the stored rows' views (one entry per row, for every store, duplicates included), ordered by ascending id |
| ListRoute.NameAcceptedIff | app/api/grocery_list/route.ts:42 | the name guard lets through exactly the non-empty strings |
| ListRoute.Post | app/api/grocery_list/route.ts:37-71 | the status is 201, 400 or 500 and success holds exactly for 201; a non-201 reply leaves the store unchanged and carries no data; a 201 appends exactly one row with the next id, a name with no surrounding whitespace and no items, and returns that row with its items; store validity is preserved |
| ListRoute.Create | app/api/grocery_list/route.ts:49-56 | the new row has the next id and no items, the existing rows are kept in front of it, and in a valid store the id is fresh and validity is kept |
| ListRoute.PostOutcomes | app/api/grocery_list/route.ts:37-71 | for a parsed body, 400 exactly when the guard rejects the name, 201 exactly for a non-empty string name and a working store; the 400 reply says "Name is required and must be a string", the 201 reply "Grocery list created successfully" and the 500 reply "Failed to create grocery list"; a store fault never gives success and leaves the store unchanged |
| ListRoute.PostNullBody | app/api/grocery_list/route.ts:39-40 | a `null` body fails the destructuring: 500, "Failed to create grocery list", the TypeError's message as `error`, store unchanged |
| ListRoute.PostStoresTrimmed | app/api/grocery_list/route.ts:40-52 | for any object body whose `name` is a non-empty string, with a working store, the reply is 201 and the stored row is the trimmed name under the next id with no items; the stored name is empty exactly when the sent name was all whitespace |
| ListRoute.CreatedListListedLast | app/api/grocery_list/route.ts:16-18 | after a successful create in a valid store, the listing is one longer and shows the new list last |
| Text.Trim | app/api/grocery_list/route.ts:51 | the result has no whitespace at either end and sits in the input with only whitespace around it |
| Text.TrimUnique | app/api/grocery_list/route.ts:51 | any infix with non-whitespace ends and only whitespace around it is the trim |
| Text.TrimIdempotent | app/api/grocery_list/route.ts:51 | trimming twice equals trimming once |
| Text.TrimEmptyIffAllSpace | components/GroceryListCard.tsx:22 | the trim is empty exactly when the text is all whitespace |
| Text.ParseShowInt | lib/api.ts:116 | the decimal text of an integer reads back as the integer |
| Text.SplitJoin | lib/api.ts:116 | splitting a join of separator-free pieces gives the pieces back |
| Text.JoinSplit | lib/api.ts:116 | joining the pieces of a split gives the text back |
| FormUrl.Serialize | lib/api.ts:119-121 | the serialization is empty exactly when no parameter was appended and never holds `?` or `#` |
| FormUrl.Encode | lib/api.ts:119-120 | an encoded name or value holds only unreserved characters, `+` and `%`, so never a delimiter |
| FormUrl.DecodeEncode | lib/api.ts:119-120 | decoding an encoded ASCII text gives it back |
| FormUrl.ParseSerialize | lib/api.ts:109-121 | parsing a serialized ASCII parameter list gives the list back, in order |
| FormUrl.Get | app/api/grocery_list/route.ts:10 | absent exactly when no parameter has the name; otherwise the value of the first one that has it |
| FormUrl.QueryOfAppended | lib/api.ts:119-121 | for a base with neither `?` nor `#`, the query read from `base?q` is `q`, and the bare base has an empty query |
| FormUrl.FragmentHidesQuery | app/api/grocery_list/route.ts:9-10 | a `?` after a `#` belongs to the fragment: a `?`-free base followed by `#` and anything has an empty query, so the handler's `searchParams` are empty |
| Client.ListsGetAllQuery | lib/api.ts:22-25 | the server reads exactly one `include_items` parameter, "false" unless `true` was passed |
| Client.ListsGetByIdQuery | lib/api.ts:28-31 | the server reads exactly one `include_items` parameter, "true" unless `false` was passed |
| Client.ListUrlRoundTrip | lib/api.ts:46-63 | a single-list URL is the collection path, a slash and text that reads back as the id, with no query |
| Client.ItemsGetAllQuery | lib/api.ts:69-76 | `purchased` is sent, and the URL has a `?`, exactly when a filter was given; without one the URL is the bare items URL |
| Client.DeleteQuery | lib/api.ts:103-127 | the server reads back exactly the parameters `delete` appended, and the URL has a `?` exactly when one was |
| Client.DeleteSelection | lib/api.ts:111-117 | at most one criterion is sent: `all` exactly when deleteAll is true, `purchased` exactly when deletePurchased is true and deleteAll is not, `item_ids` exactly when neither is and the ids are non-empty, nothing otherwise |
| Client.ParamsSelection | lib/api.ts:111-117 | on the appended parameters themselves: at most one, `all` exactly when deleteAll is true, `purchased` exactly when deletePurchased is true and deleteAll is not, `item_ids` exactly when neither is and the ids are non-empty, none otherwise |
| Client.ItemIdsRecovered | lib/api.ts:116 | the comma-joined ids split back into the decimal texts of the ids, each reading back as its id |
| Client.DeleteIdsRoundTrip | lib/api.ts:115-121 | the `item_ids` value the server reads splits into as many pieces as ids were given and each piece reads back as the id at its position |
| Client.PayloadRequests | lib/api.ts:33-100 | create and update of a list, delete of a list, create of an item and the bulk item update use POST, PUT, DELETE, POST and PATCH on the collection, list and items paths, carry exactly the payload given, and send no query parameters |
| Client.HandleIgnoresStatus | lib/api.ts:14-17 | the decoded body is returned whatever the status |
| Card.PurchasedOnly | components/GroceryListCard.tsx:19 | the purchased items: no more than all items, every one purchased, every purchased item kept, a sub-multiset of the items |
| Card.PurchasedOnlyCounts | components/GroceryListCard.tsx:19 | each purchased item occurs in the filter as often as in the list and every other item not at all, so the purchased count is the number of purchased items |
| Card.PurchasedWithinTotal | components/GroceryListCard.tsx:18-19 | the purchased count is between zero and the total, and both are zero for a list without items |
| Card.AllPurchasedIff | components/GroceryListCard.tsx:19 | the purchased count equals the total exactly when every item is purchased |
| Card.NonePurchasedIff | components/GroceryListCard.tsx:19 | the purchased count is zero exactly when no item is purchased |
| Card.PurchasedOnlyAppend | components/GroceryListCard.tsx:19 | filtering a concatenation concatenates the filtered parts |
| Card.LabelSingularIff | components/GroceryListCard.tsx:136 | the label ends in "items" for every count except one, and in "item" exactly for one |
| Card.ShownProgress | components/GroceryListCard.tsx:137-151 | completion and the bar are shown exactly for a list with items, and then purchased is at most the total and the total is positive |
| Card.Save | components/GroceryListCard.tsx:21-38 | a whitespace-only name sends nothing and changes nothing; otherwise one `PUT` to the list's URL with the trimmed, non-empty name, loading ends, editing ends and the page refreshes exactly on a successful reply |
| Card.Cancel | components/GroceryListCard.tsx:60-63 | from any state, the edit name is reset to the list's name, editing ends and the loading flag is kept |
| Card.CancelDiscardsEdits | components/GroceryListCard.tsx:60-63 | cancelling after starting an edit and typing anything returns an idle card to its initial state |
| Card.SaveEnabledSends | components/GroceryListCard.tsx:85 | the Save button is enabled exactly when the card is idle and pressing it would send the update |
| Card.Delete | components/GroceryListCard.tsx:40-58 | a request is sent exactly when the user confirmed, it is the list's `DELETE`, and the page refreshes exactly on a confirmed successful reply; declining changes nothing |
| Home.BeginFetch | app/page.tsx:16 | the error is cleared and the lists and loading flag are kept |
| Home.FinishFetch | app/page.tsx:17-29 | loading ends; the error is cleared exactly for a successful reply with data, which replaces the lists; otherwise the lists are kept and the error is the reply's message, or "Failed to fetch grocery lists" when it has none, or "Error fetching grocery lists" when the call threw |
| Home.Fetch | app/page.tsx:14-30 | loading ends, the lists are replaced exactly on a successful reply with data, and otherwise a non-empty error is set and the lists are kept |
| Home.CompletedWithinTotal | app/page.tsx:89-100 | the completed total never exceeds the items total |
| Home.TotalsCountAllItems | app/page.tsx:89-100 | the items total is the number of items across all lists and the completed total the number of purchased ones among them |
| Home.Render | app/page.tsx:36-131 | the spinner exactly while loading, the error panel exactly for a non-empty error, otherwise the cards of the lists, the statistics exactly when there are lists and the empty state exactly when there are none, with completed at most total |
| Home.InitialPage | app/page.tsx:10-12 | the page starts on the spinner with no lists, and after the first fetch either has no error or keeps the empty list and shows the error panel |
| Home.StatsXorEmpty | app/page.tsx:82-128 | the statistics and the empty state are never both shown nor both hidden |
| Home.FetchSettles | app/page.tsx:27-29 | after any fetch the spinner is gone, and the error panel shows exactly when the fetch set an error |
| Home.RetryShowsContent | app/page.tsx:57-61 | retrying from the error panel shows the previous lists while the new fetch is pending |
| Home.FetchRequestIncludesItems | app/page.tsx:17 | the handler reads the page's request as asking for items |
| Home.LoadedPageListsStore | app/page.tsx:17-20 | against a working store the page ends with no error, showing every stored list with its items in ascending id order |
| Home.FailedFetchKeepsLists | app/page.tsx:17-23 | when the store fails the page keeps its lists and shows "Failed to fetch grocery lists" |

## Left out

- Network, `fetch`, JSON encoding and decoding, and `async`/`await`: a reply or a thrown error is an argument of the function that handles it.
- The database engine: the store is a sequence of rows with an auto-increment counter; how the engine assigns ids beyond "next, unique, increasing" and its own failures are not modelled (a failure is a `Fault` argument).
- Cascading deletes, the single-list handlers and the item handlers on the server: they are outside the modelled core; the client builders for them are modelled.
- The item back-reference to its owning list that the shared type allows: never read by the modelled code.
- React rendering and markup: only what decides which screen and which blocks appear; the intermediate `isLoading` true state inside the card handlers is not kept, only the state after the handler.
- `console.error` logging: it has no effect on state.
- The progress bar width as a floating-point percentage: only the two counts and the guard that the total is positive are modelled.
- The confirmation dialog: its answer is an argument.
- The add-list and add-item forms, the item row component and the list detail page: outside the modelled core.
- FormUrl.ParseSerialize: stated for ASCII names and values only, because the decoder does not reassemble multi-byte UTF-8; every query the client builds is ASCII.
- FormUrl.DecodeEncode: stated for ASCII text only, for the same reason.
- FormUrl.Decode: decodes each `%XY` to the single character with that code, which is exact only for bytes below 128; multi-byte UTF-8 sequences are not reassembled, so FormUrl.ParseSerialize is stated for ASCII names and values only.
- Home.FinishFetch: requires the error cleared by `BeginFetch`, so it models one fetch at a time; two overlapping fetches, where a failure lands after the other's start and is never cleared by a later success, are not modelled.
- Text.ShowInt: writes plain decimal digits for every integer; JavaScript switches to exponent notation for numbers of 10^21 and above and loses precision beyond 2^53, which ids never reach.
- ListRoute.NameOf: a JSON number is a real, and non-object bodies other than `null` are read as having no `name`; property lookups through the prototype chain (such as a string body's own properties) are not modelled.

=== FILE: base.dfy ===
/** Optional and fallible values, used for the optional fields of the
    TypeScript interfaces (`x?: T`) and for operations that can throw. */
module Base {

  /** `None` stands for `undefined` (an absent optional field or argument). */
  datatype Option<+T> = None | Some(value: T) {

    /** The value, or `default` when absent: a JavaScript default parameter. */
    function GetOr(default: T): T {
      match this
      case Some(v) => v
      case None => default
    }
  }

  /** A computation that either produced a value or threw `error`. */
  datatype Result<+T, +E> = Success(value: T) | Failure(error: E)
}

=== FILE: card.dfy ===
/** One list's card on the home page (components/GroceryListCard.tsx): the
    item counts it derives, the label and progress it shows, and the
    rename/cancel/delete transitions of its local state. The replies of the
    API calls are arguments; rendering and `confirm()` are not modelled
    beyond the user's answer. */
module Card {
  import opened Base
  import opened Grocery
  import Text
  import Client

  // ---------------------------------------------------------------------
  // derived counts
  // ---------------------------------------------------------------------

  /** The purchased items of a list, in their order and with their
      repetitions. */
  function PurchasedOnly(items: seq<GroceryItem>): (r: seq<GroceryItem>)
    ensures |r| <= |items|
    ensures forall k :: 0 <= k < |r| ==> r[k].purchased
    ensures forall x :: x in items && x.purchased ==> x in r
    ensures multiset(r) <= multiset(items)
  {
    if |items| == 0 then []
    else
      assert items == [items[0]] + items[1..];
      (if items[0].purchased then [items[0]] else []) + PurchasedOnly(items[1..])
  }

  /** The filter keeps every purchased item as often as the list holds it
      and no other item, so its length is the number of purchased items. */
  lemma {:induction false} PurchasedOnlyCounts(items: seq<GroceryItem>)
    ensures forall y :: multiset(PurchasedOnly(items))[y] == if y.purchased then multiset(items)[y] else 0
  {
    if |items| > 0 {
      assert items == [items[0]] + items[1..];
      PurchasedOnlyCounts(items[1..]);
    }
  }

  /** The number of items a list carries, zero when it came without items. */
  function TotalItems(list: GroceryList): nat {
    match list.items
    case Some(items) => |items|
    case None => 0
  }

  /** The number of purchased items, zero when the list came without items. */
  function PurchasedItems(list: GroceryList): nat {
    match list.items
    case Some(items) => |PurchasedOnly(items)|
    case None => 0
  }

  lemma PurchasedWithinTotal(list: GroceryList)
    ensures 0 <= PurchasedItems(list) <= TotalItems(list)
    ensures list.items.None? ==> TotalItems(list) == 0 && PurchasedItems(list) == 0
  {
  }

  /** Every item is purchased exactly when the count reaches the total. */
  lemma {:induction false} AllPurchasedIff(items: seq<GroceryItem>)
    ensures |PurchasedOnly(items)| == |items| <==> forall k :: 0 <= k < |items| ==> items[k].purchased
  {
    if |items| > 0 {
      AllPurchasedIff(items[1..]);
      if !items[0].purchased {
        assert |PurchasedOnly(items)| < |items|;
      }
    }
  }

  /** No item is purchased exactly when the count is zero. */
  lemma {:induction false} NonePurchasedIff(items: seq<GroceryItem>)
    ensures |PurchasedOnly(items)| == 0 <==> forall k :: 0 <= k < |items| ==> !items[k].purchased
  {
    if |items| > 0 {
      NonePurchasedIff(items[1..]);
      assert forall k :: 1 <= k < |items| ==> items[1..][k - 1] == items[k];
    }
  }

  /** Filtering a concatenation filters each part. */
  lemma {:induction false} PurchasedOnlyAppend(a: seq<GroceryItem>, b: seq<GroceryItem>)
    ensures PurchasedOnly(a + b) == PurchasedOnly(a) + PurchasedOnly(b)
  {
    if |a| > 0 {
      assert (a + b)[1..] == a[1..] + b;
      PurchasedOnlyAppend(a[1..], b);
    } else {
      assert a + b == b;
    }
  }

  // ---------------------------------------------------------------------
  // what the card shows
  // ---------------------------------------------------------------------

  /** The item count in decimal, then the word "item", plural for every
      count but one. */
  function CountLabel(total: nat): string {
    Text.ShowInt(total) + " item" + (if total != 1 then "s" else "")
  }

  /** The label is singular exactly for one item. */
  lemma LabelSingularIff(total: nat)
    ensures var shown := CountLabel(total);
      && |shown| > 5
      && (shown[|shown| - 1] == 's' <==> total != 1)
      && (shown[|shown| - 5..] == "items" <==> total != 1)
      && (shown[|shown| - 4..] == "item" <==> total == 1)
  {
    var d := Text.ShowInt(total);
    assert d[|d| - 1] != 's';
  }

  /** The completion text "purchased/total completed" and the progress bar. */
  datatype Progress = Progress(purchased: nat, total: nat)

  /** Shown only for a list with items, so the bar's ratio never divides by
      zero and never exceeds one. */
  function ShownProgress(list: GroceryList): (p: Option<Progress>)
    ensures p.Some? <==> TotalItems(list) > 0
    ensures p.Some? ==> 0 <= p.value.purchased <= p.value.total && p.value.total > 0
    ensures p.Some? ==> p.value == Progress(PurchasedItems(list), TotalItems(list))
  {
    if TotalItems(list) > 0 then Some(Progress(PurchasedItems(list), TotalItems(list))) else None
  }

  // ---------------------------------------------------------------------
  // local state
  // ---------------------------------------------------------------------

  datatype CardState = CardState(isEditing: bool, editName: string, isLoading: bool)

  /** The state a card starts in. */
  function Init(list: GroceryList): CardState {
    CardState(false, list.name, false)
  }

  /** The edit button. */
  function StartEdit(s: CardState): CardState {
    s.(isEditing := true)
  }

  /** Typing in the name field. */
  function Type(s: CardState, text: string): CardState {
    s.(editName := text)
  }

  /** The Save button is enabled only while idle with a non-blank name. */
  predicate SaveEnabled(s: CardState) {
    !s.isLoading && Text.Trim(s.editName) != ""
  }

  /** How an API call ended: a decoded reply, or a thrown error. */
  datatype Outcome = Replied(success: bool) | Threw

  /** The state after a handler, the request it sent, and whether it asked
      the page to refetch (`onUpdate`). */
  datatype Step = Step(state: CardState, request: Option<Client.Request>, refresh: bool)

  /** `handleSave`. */
  function Save(s: CardState, list: GroceryList, outcome: Outcome): (r: Step)
    ensures r.request.None? <==> Text.AllSpace(s.editName)
    ensures r.request.None? ==> r.state == s && !r.refresh
    ensures r.request.Some? ==>
      && r.request.value.verb == Client.PUT
      && r.request.value.url == Client.ListUrl(list.id)
      && r.request.value.body.ListName?
      && r.request.value.body.name == Text.Trim(s.editName)
      && r.request.value.body.name != ""
      && Text.Trimmed(r.request.value.body.name)
      && !r.state.isLoading
      && r.state.editName == s.editName
      && (r.state.isEditing <==> s.isEditing && outcome != Replied(true))
      && (r.refresh <==> outcome == Replied(true))
  {
    var name := Text.Trim(s.editName);
    Text.TrimEmptyIffAllSpace(s.editName);
    if name == "" then
      Step(s, None, false)
    else
      var request := Client.ListsUpdate(list.id, name);
      match outcome
      case Replied(true) => Step(s.(isEditing := false, isLoading := false), Some(request), true)
      case _ => Step(s.(isLoading := false), Some(request), false)
  }

  /** `handleCancel`. */
  function Cancel(s: CardState, list: GroceryList): (r: CardState)
    ensures r.editName == list.name && !r.isEditing && r.isLoading == s.isLoading
  {
    s.(editName := list.name, isEditing := false)
  }

  /** Cancelling discards any edit: an idle card that started editing and
      had anything typed returns to its initial state. */
  lemma CancelDiscardsEdits(list: GroceryList, s: CardState, typed: string)
    requires !s.isLoading
    ensures Cancel(Type(StartEdit(s), typed), list) == Init(list)
  {
  }

  /** The Save button is enabled exactly when the card is idle and a save
      would send a request. */
  lemma SaveEnabledSends(s: CardState, list: GroceryList, outcome: Outcome)
    ensures SaveEnabled(s) <==> !s.isLoading && Save(s, list, outcome).request.Some?
  {
    Text.TrimEmptyIffAllSpace(s.editName);
  }

  /** `handleDelete`, given the user's answer to the confirmation. */
  function Delete(s: CardState, list: GroceryList, confirmed: bool, outcome: Outcome): (r: Step)
    ensures r.request.Some? <==> confirmed
    ensures r.request.Some? ==> r.request.value == Client.ListsDelete(list.id)
    ensures r.refresh <==> confirmed && outcome == Replied(true)
    ensures r.state.isEditing == s.isEditing && r.state.editName == s.editName
    ensures confirmed ==> !r.state.isLoading
    ensures !confirmed ==> r.state == s
  {
    if !confirmed then Step(s, None, false)
    else Step(s.(isLoading := false), Some(Client.ListsDelete(list.id)), outcome == Replied(true))
  }
}

=== FILE: client.dfy ===
/** The browser-side API client (lib/api.ts): each call becomes an HTTP
    request (method, URL, JSON payload) and the decoded reply is handed back
    as it is. `fetch` itself is not modelled; the reply is an argument. */
module Client {
  import opened Base
  import opened Grocery
  import Text
  import FormUrl

  const ApiBase := "/api"

  datatype Method = GET | POST | PUT | PATCH | DELETE

  /** The object passed to `JSON.stringify` as the request body. */
  datatype Payload =
    | NoBody
    | ListName(name: string)
    | NewItem(itemName: string, initiallyPurchased: Option<bool>)
    | BulkUpdate(setPurchased: bool, markAll: Option<bool>, itemIds: Option<seq<int>>)

  datatype Request = Request(verb: Method, url: string, body: Payload)

  /** A boolean inside a template literal. */
  function BoolText(b: bool): string {
    if b then "true" else "false"
  }

  function ListsUrl(): string {
    ApiBase + "/grocery_list"
  }

  function ListUrl(id: int): string {
    ListsUrl() + "/" + Text.ShowInt(id)
  }

  function ItemsUrl(listId: int): string {
    ListUrl(listId) + "/items"
  }

  // ---------------------------------------------------------------------
  // groceryListsApi
  // ---------------------------------------------------------------------

  /** Lists `getAll`: the include flag defaults to false. */
  function ListsGetAll(includeItems: Option<bool>): Request {
    Request(GET, ListsUrl() + "?include_items=" + BoolText(includeItems.GetOr(false)), NoBody)
  }

  /** Lists `getById`: the include flag defaults to true. */
  function ListsGetById(id: int, includeItems: Option<bool>): Request {
    Request(GET, ListUrl(id) + "?include_items=" + BoolText(includeItems.GetOr(true)), NoBody)
  }

  function ListsCreate(name: string): Request {
    Request(POST, ListsUrl(), ListName(name))
  }

  function ListsUpdate(id: int, name: string): Request {
    Request(PUT, ListUrl(id), ListName(name))
  }

  function ListsDelete(id: int): Request {
    Request(DELETE, ListUrl(id), NoBody)
  }

  // ---------------------------------------------------------------------
  // groceryItemsApi
  // ---------------------------------------------------------------------

  /** Items `getAll`: the purchased filter is appended only when it was
      given. */
  function ItemsGetAll(listId: int, purchased: Option<bool>): Request {
    var url := ItemsUrl(listId);
    match purchased
    case Some(b) => Request(GET, url + "?purchased=" + BoolText(b), NoBody)
    case None => Request(GET, url, NoBody)
  }

  function ItemsCreate(listId: int, name: string, purchased: Option<bool>): Request {
    Request(POST, ItemsUrl(listId), NewItem(name, purchased))
  }

  function ItemsUpdateBulk(listId: int, purchased: bool, markAll: Option<bool>, itemIds: Option<seq<int>>): Request {
    Request(PATCH, ItemsUrl(listId), BulkUpdate(purchased, markAll, itemIds))
  }

  /** The `options` argument of `delete`; every field may be left out. */
  datatype DeleteOptions = DeleteOptions(
    itemIds: Option<seq<int>>,
    deleteAll: Option<bool>,
    deletePurchased: Option<bool>)

  /** JavaScript truthiness of an optional boolean. */
  predicate Truthy(b: Option<bool>) {
    b == Some(true)
  }

  /** Decimal texts of the ids, in order. */
  function ShowAll(ids: seq<int>): (r: seq<string>)
    ensures |r| == |ids|
    ensures forall k :: 0 <= k < |ids| ==> r[k] == Text.ShowInt(ids[k])
  {
    seq(|ids|, k requires 0 <= k < |ids| => Text.ShowInt(ids[k]))
  }

  /** The ids in decimal, separated by commas. */
  function IdList(ids: seq<int>): string {
    Text.Join(ShowAll(ids), ',')
  }

  /** The parameters `delete` appends, first applicable rule wins:
      everything, then purchased items, then the listed ids. */
  function DeleteParams(opts: DeleteOptions): seq<FormUrl.Param> {
    if Truthy(opts.deleteAll) then [("all", "true")]
    else if Truthy(opts.deletePurchased) then [("purchased", "true")]
    else if opts.itemIds.Some? && |opts.itemIds.value| > 0 then [("item_ids", IdList(opts.itemIds.value))]
    else []
  }

  /** Items `delete`, whose options all default to absent: `?` and the
      serialized parameters are appended only when some parameter was. */
  function ItemsDelete(listId: int, opts: DeleteOptions): Request {
    var query := FormUrl.Serialize(DeleteParams(opts));
    var url := ItemsUrl(listId);
    Request(DELETE, if query != "" then url + "?" + query else url, NoBody)
  }

  /** `handleApiResponse`: the decoded body, whatever the status. */
  function HandleApiResponse<T>(status: int, body: Envelope<T>): Envelope<T> {
    body
  }

  // ---------------------------------------------------------------------
  // what the server reads back
  // ---------------------------------------------------------------------

  /** The parameters the server's `searchParams` see in a request URL. */
  function ServerParams(r: Request): seq<FormUrl.Param> {
    FormUrl.ParseQuery(FormUrl.QueryOf(r.url))
  }

  /** The paths the client builds contain neither `?` nor `#`. */
  lemma NoDelimiters(listId: int)
    ensures '?' !in ItemsUrl(listId) && '?' !in ListUrl(listId) && '?' !in ListsUrl()
    ensures '#' !in ItemsUrl(listId) && '#' !in ListUrl(listId) && '#' !in ListsUrl()
  {
    var d := Text.ShowInt(listId);
    assert forall k :: 0 <= k < |d| ==> d[k] != '?' && d[k] != '#';
  }

  /** The decimal list of ids is ASCII text. */
  lemma IdListAscii(ids: seq<int>)
    ensures FormUrl.IsAscii(IdList(ids))
  {
    var xs := ShowAll(ids);
    forall k | 0 <= k < |xs| ensures FormUrl.IsAscii(xs[k]) {
      assert xs[k] == Text.ShowInt(ids[k]);
    }
    FormUrl.JoinAscii(xs, ',');
  }

  /** A query written as the literal `lit` = `?name=` followed by a value,
      both of unreserved characters, reads back as that one parameter. */
  lemma LiteralQuery(base: string, lit: string, name: string, value: string)
    requires '?' !in base && '#' !in base
    requires lit == "?" + name + "="
    requires forall k :: 0 <= k < |name| ==> FormUrl.IsUnreserved(name[k])
    requires forall k :: 0 <= k < |value| ==> FormUrl.IsUnreserved(value[k])
    ensures FormUrl.ParseQuery(FormUrl.QueryOf(base + lit + value)) == [(name, value)]
  {
    FormUrl.EncodeUnreserved(name);
    FormUrl.EncodeUnreserved(value);
    var q := name + "=" + value;
    assert FormUrl.Serialize([(name, value)]) == q;
    assert base + lit + value == base + "?" + q;
    FormUrl.QueryOfAppended(base, q);
    FormUrl.ParseSerialize([(name, value)]);
  }

  /** Lists `getAll` always sends `include_items`, false unless asked. */
  lemma ListsGetAllQuery(includeItems: Option<bool>)
    ensures ServerParams(ListsGetAll(includeItems)) == [("include_items", BoolText(includeItems.GetOr(false)))]
  {
    NoDelimiters(0);
    LiteralQuery(ListsUrl(), "?include_items=", "include_items", BoolText(includeItems.GetOr(false)));
  }

  /** Lists `getById` always sends `include_items`, true unless declined. */
  lemma ListsGetByIdQuery(id: int, includeItems: Option<bool>)
    ensures ServerParams(ListsGetById(id, includeItems)) == [("include_items", BoolText(includeItems.GetOr(true)))]
  {
    NoDelimiters(id);
    LiteralQuery(ListUrl(id), "?include_items=", "include_items", BoolText(includeItems.GetOr(true)));
  }

  /** Items `getAll` sends `purchased` exactly when a filter was given, and
      the URL has a query exactly then. */
  lemma ItemsGetAllQuery(listId: int, purchased: Option<bool>)
    ensures ServerParams(ItemsGetAll(listId, purchased)) ==
      if purchased.Some? then [("purchased", BoolText(purchased.value))] else []
    ensures '?' in ItemsGetAll(listId, purchased).url <==> purchased.Some?
    ensures purchased.None? ==> ItemsGetAll(listId, purchased).url == ItemsUrl(listId)
  {
    NoDelimiters(listId);
    if purchased.Some? {
      LiteralQuery(ItemsUrl(listId), "?purchased=", "purchased", BoolText(purchased.value));
    } else {
      FormUrl.QueryOfAppended(ItemsUrl(listId), "");
    }
  }

  lemma DeleteParamsAscii(opts: DeleteOptions)
    ensures FormUrl.AllAscii(DeleteParams(opts))
  {
    if opts.itemIds.Some? {
      IdListAscii(opts.itemIds.value);
    }
  }

  /** The query of an items `delete` reads back as exactly the parameters
      `delete` appended, and the URL has a `?` exactly when there is one. */
  lemma DeleteQuery(listId: int, opts: DeleteOptions)
    ensures ServerParams(ItemsDelete(listId, opts)) == DeleteParams(opts)
    ensures '?' in ItemsDelete(listId, opts).url <==> |DeleteParams(opts)| > 0
  {
    var ps := DeleteParams(opts);
    var q := FormUrl.Serialize(ps);
    var base := ItemsUrl(listId);
    NoDelimiters(listId);
    FormUrl.QueryOfAppended(base, q);
    DeleteParamsAscii(opts);
    FormUrl.ParseSerialize(ps);
    if q == "" {
      assert ps == [];
      assert FormUrl.ParseQuery("") == [];
    }
  }

  /** Priority of the delete criteria as the server sees them: `all` beats
      `purchased`, which beats `item_ids`, and at most one is sent. */
  lemma DeleteSelection(listId: int, opts: DeleteOptions)
    ensures var ps := ServerParams(ItemsDelete(listId, opts));
      && |ps| <= 1
      && (FormUrl.Get(ps, "all") == Some("true") <==> Truthy(opts.deleteAll))
      && (FormUrl.Get(ps, "purchased") == Some("true") <==>
            !Truthy(opts.deleteAll) && Truthy(opts.deletePurchased))
      && (FormUrl.Get(ps, "item_ids").Some? <==>
            !Truthy(opts.deleteAll) && !Truthy(opts.deletePurchased)
            && opts.itemIds.Some? && |opts.itemIds.value| > 0)
      && (ps == [] <==>
            !Truthy(opts.deleteAll) && !Truthy(opts.deletePurchased)
            && (opts.itemIds.None? || |opts.itemIds.value| == 0))
  {
    DeleteQuery(listId, opts);
    ParamsSelection(opts);
  }

  /** The same priority on the appended parameters themselves. */
  lemma ParamsSelection(opts: DeleteOptions)
    ensures var ps := DeleteParams(opts);
      && |ps| <= 1
      && (FormUrl.Get(ps, "all") == Some("true") <==> Truthy(opts.deleteAll))
      && (FormUrl.Get(ps, "purchased") == Some("true") <==>
            !Truthy(opts.deleteAll) && Truthy(opts.deletePurchased))
      && (FormUrl.Get(ps, "item_ids").Some? <==>
            !Truthy(opts.deleteAll) && !Truthy(opts.deletePurchased)
            && opts.itemIds.Some? && |opts.itemIds.value| > 0)
      && (ps == [] <==>
            !Truthy(opts.deleteAll) && !Truthy(opts.deletePurchased)
            && (opts.itemIds.None? || |opts.itemIds.value| == 0))
  {
    var ps := DeleteParams(opts);
    if Truthy(opts.deleteAll) {
      assert ps == [("all", "true")];
    } else if Truthy(opts.deletePurchased) {
      assert ps == [("purchased", "true")];
    } else if opts.itemIds.Some? && |opts.itemIds.value| > 0 {
      assert ps == [("item_ids", IdList(opts.itemIds.value))];
    } else {
      assert ps == [];
    }
  }

  /** Splitting the `item_ids` value on commas gives the decimal texts of
      the ids in order, and each reads back as its id. */
  lemma {:induction false} ItemIdsRecovered(ids: seq<int>)
    requires |ids| > 0
    ensures Text.Split(IdList(ids), ',') == ShowAll(ids)
    ensures forall k :: 0 <= k < |ids| ==> Text.ParseInt(Text.Split(IdList(ids), ',')[k]) == Some(ids[k])
  {
    var xs := ShowAll(ids);
    forall k | 0 <= k < |xs| ensures ',' !in xs[k] {
      var d := Text.ShowInt(ids[k]);
      assert forall j :: 0 <= j < |d| ==> d[j] != ',';
    }
    Text.SplitJoin(xs, ',');
    forall k | 0 <= k < |ids| ensures Text.ParseInt(xs[k]) == Some(ids[k]) {
      Text.ParseShowInt(ids[k]);
    }
  }

  /** End to end: when neither flag is set and ids are given, the server's
      `item_ids` value splits and reads back to the ids, in order. */
  lemma DeleteIdsRoundTrip(listId: int, opts: DeleteOptions)
    requires !Truthy(opts.deleteAll) && !Truthy(opts.deletePurchased)
    requires opts.itemIds.Some? && |opts.itemIds.value| > 0
    ensures var v := FormUrl.Get(ServerParams(ItemsDelete(listId, opts)), "item_ids");
      && v.Some?
      && |Text.Split(v.value, ',')| == |opts.itemIds.value|
      && forall k :: 0 <= k < |opts.itemIds.value| ==>
           Text.ParseInt(Text.Split(v.value, ',')[k]) == Some(opts.itemIds.value[k])
  {
    DeleteQuery(listId, opts);
    ItemIdsRecovered(opts.itemIds.value);
  }

  /** The path of a single list ends in the list's id: after the
      collection path and a slash, its decimal text reads back as the id,
      and the URL carries no query. */
  lemma ListUrlRoundTrip(id: int)
    ensures var url := ListUrl(id);
      && url[..|ListsUrl()| + 1] == ListsUrl() + "/"
      && Text.ParseInt(url[|ListsUrl()| + 1..]) == Some(id)
      && FormUrl.QueryOf(url) == ""
  {
    var url := ListUrl(id);
    assert url[|ListsUrl()| + 1..] == Text.ShowInt(id);
    Text.ParseShowInt(id);
    NoDelimiters(id);
    FormUrl.QueryOfAppended(url, "");
  }

  /** The requests that carry a JSON payload go to the collection or item
      paths with no query: the server reads no parameters from them, and each
      carries the payload it was given under its own method. */
  lemma PayloadRequests(listId: int, name: string, purchased: Option<bool>, setPurchased: bool,
                        markAll: Option<bool>, itemIds: Option<seq<int>>)
    ensures var r := ListsCreate(name);
      r.verb == POST && r.url == ListsUrl() && r.body == ListName(name) && ServerParams(r) == []
    ensures var r := ListsUpdate(listId, name);
      r.verb == PUT && r.url == ListUrl(listId) && r.body == ListName(name) && ServerParams(r) == []
    ensures var r := ListsDelete(listId);
      r.verb == DELETE && r.url == ListUrl(listId) && r.body == NoBody && ServerParams(r) == []
    ensures var r := ItemsCreate(listId, name, purchased);
      r.verb == POST && r.url == ItemsUrl(listId) && r.body == NewItem(name, purchased) && ServerParams(r) == []
    ensures var r := ItemsUpdateBulk(listId, setPurchased, markAll, itemIds);
      && r.verb == PATCH && r.url == ItemsUrl(listId)
      && r.body == BulkUpdate(setPurchased, markAll, itemIds) && ServerParams(r) == []
  {
    NoDelimiters(listId);
    FormUrl.QueryOfAppended(ListsUrl(), "");
    FormUrl.QueryOfAppended(ListUrl(listId), "");
    FormUrl.QueryOfAppended(ItemsUrl(listId), "");
    assert FormUrl.ParseQuery("") == [];
  }

  /** `handleApiResponse` never looks at the status: an error reply is
      returned like a success. */
  lemma HandleIgnoresStatus<T>(status: int, body: Envelope<T>)
    ensures HandleApiResponse(status, body) == HandleApiResponse(200, body) == body
  {
  }
}

=== FILE: form_url.dfy ===
/** Query strings as `URLSearchParams` writes and reads them: the
    application/x-www-form-urlencoded serializer of the WHATWG URL Standard,
    a parser for it, the `get` lookup, and the query part of a URL. */
module FormUrl {
  import opened Base
  import Text

  /** A query parameter: name and value, in the order they were appended. */
  type Param = (string, string)

  // ---------------------------------------------------------------------
  // serializing
  // ---------------------------------------------------------------------

  /** Characters the serializer writes through unchanged. */
  predicate IsUnreserved(c: char) {
    ('a' <= c <= 'z') || ('A' <= c <= 'Z') || ('0' <= c <= '9')
    || c == '*' || c == '-' || c == '.' || c == '_'
  }

  predicate IsAscii(s: string) {
    forall k :: 0 <= k < |s| ==> s[k] as int < 128
  }

  predicate IsHex(c: char) {
    ('0' <= c <= '9') || ('A' <= c <= 'F') || ('a' <= c <= 'f')
  }

  /** Upper-case hexadecimal digit, as the serializer writes it. */
  function HexDigit(d: nat): (c: char)
    requires d < 16
    ensures IsHex(c) && IsUnreserved(c)
  {
    if d < 10 then (48 + d) as char else (55 + d) as char
  }

  function HexValue(c: char): (d: nat)
    requires IsHex(c)
    ensures d < 16
    ensures 'a' > c ==> HexDigit(d) == c
  {
    if c <= '9' then c as int - 48
    else if c <= 'F' then c as int - 55
    else c as int - 87
  }

  /** UTF-8 encoding of one code point, as byte values. */
  function Utf8(c: char): (bytes: seq<nat>)
    ensures 1 <= |bytes| <= 4
    ensures forall k :: 0 <= k < |bytes| ==> bytes[k] < 256
    ensures (|bytes| == 1) == (c as int < 128)
  {
    var n := c as int;
    if n < 0x80 then [n]
    else if n < 0x800 then [0xC0 + n / 64, 0x80 + n % 64]
    else if n < 0x10000 then [0xE0 + n / 4096, 0x80 + (n / 64) % 64, 0x80 + n % 64]
    else [0xF0 + n / 262144, 0x80 + (n / 4096) % 64, 0x80 + (n / 64) % 64, 0x80 + n % 64]
  }

  /** `%XY` for every byte. */
  function PercentBytes(bytes: seq<nat>): (r: string)
    requires forall k :: 0 <= k < |bytes| ==> bytes[k] < 256
    ensures |r| == 3 * |bytes|
    ensures forall k :: 0 <= k < |r| ==> IsUnreserved(r[k]) || r[k] == '%'
  {
    if |bytes| == 0 then ""
    else ['%', HexDigit(bytes[0] / 16), HexDigit(bytes[0] % 16)] + PercentBytes(bytes[1..])
  }

  /** Encoding of one character: space becomes `+`, unreserved characters
      stay, everything else is percent-encoded byte by byte. */
  function EncodeChar(c: char): (r: string)
    ensures |r| > 0
    ensures forall k :: 0 <= k < |r| ==> IsUnreserved(r[k]) || r[k] == '+' || r[k] == '%'
  {
    if c == ' ' then "+"
    else if IsUnreserved(c) then [c]
    else PercentBytes(Utf8(c))
  }

  /** Encoding of a name or a value. Only unreserved characters, `+` and `%`
      appear in it, so it never holds the `&`, `=`, `?` or `#` delimiters. */
  function Encode(s: string): (r: string)
    ensures forall k :: 0 <= k < |r| ==> IsUnreserved(r[k]) || r[k] == '+' || r[k] == '%'
    ensures '&' !in r && '=' !in r && '?' !in r && '#' !in r
  {
    if |s| == 0 then "" else EncodeChar(s[0]) + Encode(s[1..])
  }

  function EncodePair(p: Param): string {
    Encode(p.0) + "=" + Encode(p.1)
  }

  function EncodePairs(ps: seq<Param>): (r: seq<string>)
    ensures |r| == |ps|
    ensures forall k :: 0 <= k < |r| ==> r[k] == EncodePair(ps[k])
  {
    if |ps| == 0 then [] else [EncodePair(ps[0])] + EncodePairs(ps[1..])
  }

  /** `params.toString()`: encoded pairs joined by `&`. Empty exactly when
      nothing was appended; never holds `?` or `#`. */
  function Serialize(ps: seq<Param>): (r: string)
    ensures (r == "") == (|ps| == 0)
    ensures '?' !in r && '#' !in r
  {
    var pieces := EncodePairs(ps);
    Text.JoinAvoids(pieces, '&', '?');
    Text.JoinAvoids(pieces, '&', '#');
    assert |ps| > 0 ==> '=' in pieces[0];
    Text.Join(pieces, '&')
  }

  // ---------------------------------------------------------------------
  // parsing
  // ---------------------------------------------------------------------

  /** Index of the first `c` in `s`, or `|s|` when there is none. */
  function FirstIndex(s: string, c: char): (k: nat)
    ensures k <= |s|
    ensures forall j :: 0 <= j < k ==> s[j] != c
    ensures k < |s| ==> s[k] == c
  {
    if |s| == 0 || s[0] == c then 0 else 1 + FirstIndex(s[1..], c)
  }

  /** Percent-decoding with `+` read as space. Each `%XY` gives the character
      whose code is the byte XY, which is exact for bytes below 128; a `%` not
      followed by two hexadecimal digits stays as it is. */
  function Decode(s: string): string
    decreases |s|
  {
    if |s| == 0 then ""
    else if s[0] == '+' then " " + Decode(s[1..])
    else if s[0] == '%' && |s| >= 3 && IsHex(s[1]) && IsHex(s[2]) then
      [(16 * HexValue(s[1]) + HexValue(s[2])) as char] + Decode(s[3..])
    else [s[0]] + Decode(s[1..])
  }

  /** One `name=value` piece, split at its first `=`; a piece without `=`
      is a name with the empty value. */
  function ParsePair(piece: string): Param {
    var k := FirstIndex(piece, '=');
    if k < |piece| then (Decode(piece[..k]), Decode(piece[k + 1..]))
    else (Decode(piece), "")
  }

  function ParsePieces(pieces: seq<string>): seq<Param> {
    if |pieces| == 0 then []
    else if pieces[0] == "" then ParsePieces(pieces[1..])
    else [ParsePair(pieces[0])] + ParsePieces(pieces[1..])
  }

  /** The parameter list of a query string: `&`-separated pieces, empty
      pieces skipped. */
  function ParseQuery(q: string): seq<Param> {
    ParsePieces(Text.Split(q, '&'))
  }

  /** `searchParams.get(name)`: the value of the first parameter with that
      name, absent when there is none. */
  function Get(ps: seq<Param>, name: string): (r: Option<string>)
    ensures r.None? <==> forall k :: 0 <= k < |ps| ==> ps[k].0 != name
    ensures forall k :: 0 <= k < |ps| && ps[k].0 == name && FirstNamed(ps, name, k) ==> r == Some(ps[k].1)
  {
    if |ps| == 0 then None
    else if ps[0].0 == name then Some(ps[0].1)
    else Get(ps[1..], name)
  }

  /** No parameter before position `k` is called `name`. */
  predicate FirstNamed(ps: seq<Param>, name: string, k: int)
    requires 0 <= k <= |ps|
  {
    forall j :: 0 <= j < k ==> ps[j].0 != name
  }

  /** The query of a URL: what follows the first `?`, up to any `#`; a `?`
      inside the fragment (after a `#`) starts no query. */
  function QueryOf(url: string): string {
    var k := FirstIndex(url, '?');
    if k < FirstIndex(url, '#') then
      var rest := url[k + 1..];
      rest[..FirstIndex(rest, '#')]
    else ""
  }

  // ---------------------------------------------------------------------
  // round trips
  // ---------------------------------------------------------------------

  lemma HexRoundTrip(b: nat)
    requires b < 256
    ensures 16 * HexValue(HexDigit(b / 16)) + HexValue(HexDigit(b % 16)) == b
  {
  }

  lemma DecodeEncodeChar(c: char, rest: string)
    requires c as int < 128
    ensures Decode(EncodeChar(c) + rest) == [c] + Decode(rest)
  {
    var e := EncodeChar(c) + rest;
    if c == ' ' {
      assert e[1..] == rest;
    } else if IsUnreserved(c) {
      assert e[1..] == rest;
    } else {
      var b := c as int;
      assert EncodeChar(c) == ['%', HexDigit(b / 16), HexDigit(b % 16)];
      HexRoundTrip(b);
      assert e[3..] == rest;
    }
  }

  /** Decoding an encoded ASCII string gives it back. */
  lemma {:induction false} DecodeEncode(s: string)
    requires IsAscii(s)
    ensures Decode(Encode(s)) == s
  {
    if |s| > 0 {
      DecodeEncodeChar(s[0], Encode(s[1..]));
      DecodeEncode(s[1..]);
      assert [s[0]] + s[1..] == s;
    }
  }

  lemma ParseEncodedPair(p: Param)
    requires IsAscii(p.0) && IsAscii(p.1)
    ensures ParsePair(EncodePair(p)) == p
  {
    var a, b := Encode(p.0), Encode(p.1);
    var piece := EncodePair(p);
    var k := FirstIndex(piece, '=');
    assert piece[|a|] == '=';
    assert k == |a|;
    assert piece[..k] == a && piece[k + 1..] == b;
    DecodeEncode(p.0);
    DecodeEncode(p.1);
  }

  predicate AllAscii(ps: seq<Param>) {
    forall k :: 0 <= k < |ps| ==> IsAscii(ps[k].0) && IsAscii(ps[k].1)
  }

  lemma {:induction false} ParseEncodedPairs(ps: seq<Param>)
    requires AllAscii(ps)
    ensures ParsePieces(EncodePairs(ps)) == ps
  {
    if |ps| > 0 {
      var pieces := EncodePairs(ps);
      assert pieces[0] != "" by { assert '=' in pieces[0]; }
      assert pieces[1..] == EncodePairs(ps[1..]);
      ParseEncodedPair(ps[0]);
      ParseEncodedPairs(ps[1..]);
      assert [ps[0]] + ps[1..] == ps;
    }
  }

  /** Parsing a serialized parameter list gives the list back, for ASCII
      names and values. */
  lemma ParseSerialize(ps: seq<Param>)
    requires AllAscii(ps)
    ensures ParseQuery(Serialize(ps)) == ps
  {
    var pieces := EncodePairs(ps);
    if |ps| > 0 {
      Text.SplitJoin(pieces, '&');
    }
    ParseEncodedPairs(ps);
  }

  /** Text made only of unreserved characters is written through unchanged. */
  lemma {:induction false} EncodeUnreserved(s: string)
    requires forall k :: 0 <= k < |s| ==> IsUnreserved(s[k])
    ensures Encode(s) == s
  {
    if |s| > 0 {
      EncodeUnreserved(s[1..]);
      assert [s[0]] + s[1..] == s;
    }
  }

  /** A query appended after a base free of `?` and `#` is what the URL's
      query reads. */
  lemma QueryOfAppended(base: string, q: string)
    requires '?' !in base && '#' !in base && '#' !in q
    ensures QueryOf(base + "?" + q) == q
    ensures QueryOf(base) == ""
  {
    var url := base + "?" + q;
    assert url[|base|] == '?';
    var k := FirstIndex(url, '?');
    assert url[k + 1..] == q;
  }

  /** Whatever follows a `#` is fragment, never query: a `?` after it
      leaves the query empty. */
  lemma FragmentHidesQuery(base: string, fragment: string)
    requires '?' !in base
    ensures QueryOf(base + "#" + fragment) == ""
  {
    var url := base + "#" + fragment;
    assert url[|base|] == '#';
    assert FirstIndex(url, '#') <= |base|;
    assert forall j :: 0 <= j < |base| ==> url[j] == base[j];
  }

  /** Joining ASCII pieces with an ASCII separator gives ASCII text. */
  lemma {:induction false} JoinAscii(xs: seq<string>, sep: char)
    requires sep as int < 128
    requires forall k :: 0 <= k < |xs| ==> IsAscii(xs[k])
    ensures IsAscii(Text.Join(xs, sep))
  {
    if |xs| > 1 {
      JoinAscii(xs[1..], sep);
    }
  }
}

=== FILE: grocery.dfy ===
/** The shapes shared by the server and the browser (types/grocery.ts). */
module Grocery {
  import opened Base

  /** An item of a list. The optional back-reference to the owning list that
      the interface allows is never read by the modelled code and is omitted. */
  datatype GroceryItem = GroceryItem(id: int, name: string, purchased: bool, groceryListId: int)

  /** A list; `items` is absent when the listing was asked without items. */
  datatype GroceryList = GroceryList(id: int, name: string, items: Option<seq<GroceryItem>>)

  /** The uniform JSON body of every API response. */
  datatype Envelope<T> = Envelope(
    success: bool,
    message: Option<string>,
    data: Option<T>,
    count: Option<int>,
    error: Option<string>)

  /** An HTTP response: status code and envelope body. */
  datatype Response<T> = Response(status: int, body: Envelope<T>)
}

=== FILE: home.dfy ===
/** The home page (app/page.tsx): the state it keeps, how a fetch of the
    lists updates it, the totals its statistics show, and which of the
    spinner, the error panel or the content it renders. The reply of the
    fetch is an argument; markup is reduced to what decides it. */
module Home {
  import opened Base
  import opened Grocery
  import Card
  import Client
  import ListRoute

  datatype HomeState = HomeState(lists: seq<GroceryList>, isLoading: bool, error: Option<string>)

  /** No lists yet, loading, no error. */
  function Init(): HomeState {
    HomeState([], true, None)
  }

  const FetchFailed := "Failed to fetch grocery lists"
  const FetchThrew := "Error fetching grocery lists"

  /** How the awaited `getAll` call ended. */
  datatype FetchOutcome = Replied(body: Envelope<seq<GroceryList>>) | Threw

  /** The page always asks for the lists with their items. */
  function FetchRequest(): Client.Request {
    Client.ListsGetAll(Some(true))
  }

  // ---------------------------------------------------------------------
  // fetching
  // ---------------------------------------------------------------------

  /** The message when there is a non-empty one, else the fallback. */
  function OrElse(message: Option<string>, fallback: string): (r: string)
    ensures message.Some? && message.value != "" ==> r == message.value
    ensures message.None? || message.value == "" ==> r == fallback
  {
    if message.Some? && message.value != "" then message.value else fallback
  }

  /** The start of `fetchGroceryLists`: the error is cleared, nothing else
      changes (in particular a retry does not bring the spinner back). */
  function BeginFetch(s: HomeState): (r: HomeState)
    ensures r.error.None? && r.lists == s.lists && r.isLoading == s.isLoading
  {
    s.(error := None)
  }

  /** The end of `fetchGroceryLists`: a successful reply with data replaces
      the lists; any other reply, or a thrown error, keeps the lists and sets
      an error; loading always stops. */
  function FinishFetch(s: HomeState, outcome: FetchOutcome): (r: HomeState)
    requires s.error.None?
    ensures !r.isLoading
    ensures r.error.None? <==> outcome.Replied? && outcome.body.success && outcome.body.data.Some?
    ensures r.error.None? ==> r.lists == outcome.body.data.value
    ensures r.error.Some? ==> r.lists == s.lists && r.error.value != ""
    ensures outcome.Threw? ==> r.error == Some(FetchThrew)
    ensures outcome.Replied? && r.error.Some? ==> r.error == Some(OrElse(outcome.body.message, FetchFailed))
  {
    match outcome
    case Threw => s.(error := Some(FetchThrew), isLoading := false)
    case Replied(body) =>
      if body.success && body.data.Some? then s.(lists := body.data.value, isLoading := false)
      else s.(error := Some(OrElse(body.message, FetchFailed)), isLoading := false)
  }

  /** `fetchGroceryLists` from start to end. */
  function Fetch(s: HomeState, outcome: FetchOutcome): (r: HomeState)
    ensures !r.isLoading
    ensures r.error.None? <==> outcome.Replied? && outcome.body.success && outcome.body.data.Some?
    ensures r.error.None? ==> r.lists == outcome.body.data.value
    ensures r.error.Some? ==> r.lists == s.lists && r.error.value != ""
  {
    FinishFetch(BeginFetch(s), outcome)
  }

  // ---------------------------------------------------------------------
  // statistics
  // ---------------------------------------------------------------------

  /** The item counts of the lists summed from the left, a list without
      items adding zero. */
  function TotalItems(lists: seq<GroceryList>): nat {
    if |lists| == 0 then 0
    else TotalItems(lists[..|lists| - 1]) + Card.TotalItems(lists[|lists| - 1])
  }

  /** The same fold over the purchased counts. */
  function CompletedItems(lists: seq<GroceryList>): nat {
    if |lists| == 0 then 0
    else CompletedItems(lists[..|lists| - 1]) + Card.PurchasedItems(lists[|lists| - 1])
  }

  /** Every item of every list, in order; a list without items adds none. */
  function AllItems(lists: seq<GroceryList>): seq<GroceryItem> {
    if |lists| == 0 then []
    else AllItems(lists[..|lists| - 1]) + lists[|lists| - 1].items.GetOr([])
  }

  /** The completed count never exceeds the total. */
  lemma {:induction false} CompletedWithinTotal(lists: seq<GroceryList>)
    ensures CompletedItems(lists) <= TotalItems(lists)
  {
    if |lists| > 0 {
      CompletedWithinTotal(lists[..|lists| - 1]);
      Card.PurchasedWithinTotal(lists[|lists| - 1]);
    }
  }

  /** The total is the number of items across all lists, and the completed
      count the number of purchased ones among them. */
  lemma {:induction false} TotalsCountAllItems(lists: seq<GroceryList>)
    ensures TotalItems(lists) == |AllItems(lists)|
    ensures CompletedItems(lists) == |Card.PurchasedOnly(AllItems(lists))|
  {
    if |lists| > 0 {
      var init, last := lists[..|lists| - 1], lists[|lists| - 1];
      TotalsCountAllItems(init);
      Card.PurchasedOnlyAppend(AllItems(init), last.items.GetOr([]));
    }
  }

  // ---------------------------------------------------------------------
  // rendering
  // ---------------------------------------------------------------------

  /** The three statistics cards. */
  datatype Stats = Stats(lists: nat, items: nat, completed: nat)

  /** What the page shows: the spinner, the error panel with its retry
      button, or the statistics (if any), the cards and the empty state (if
      any). */
  datatype Screen =
    | Spinner
    | ErrorPanel(message: string)
    | Content(stats: Option<Stats>, cards: seq<GroceryList>, emptyState: bool)

  function Render(s: HomeState): (v: Screen)
    ensures v.Spinner? <==> s.isLoading
    ensures v.ErrorPanel? <==> !s.isLoading && s.error.Some? && s.error.value != ""
    ensures v.ErrorPanel? ==> v.message == s.error.value
    ensures v.Content? ==> v.cards == s.lists
    ensures v.Content? ==> (v.stats.Some? <==> |s.lists| > 0) && (v.emptyState <==> |s.lists| == 0)
    ensures v.Content? && v.stats.Some? ==>
      && v.stats.value.lists == |s.lists|
      && v.stats.value.items == |AllItems(s.lists)|
      && v.stats.value.completed == |Card.PurchasedOnly(AllItems(s.lists))|
      && v.stats.value.completed <= v.stats.value.items
  {
    if s.isLoading then Spinner
    else if s.error.Some? && s.error.value != "" then ErrorPanel(s.error.value)
    else
      CompletedWithinTotal(s.lists);
      TotalsCountAllItems(s.lists);
      var stats := if |s.lists| > 0 then Some(Stats(|s.lists|, TotalItems(s.lists), CompletedItems(s.lists))) else None;
      Content(stats, s.lists, |s.lists| == 0)
  }

  /** Statistics and the empty state are never shown together, and one of
      them always is once the lists are on screen. */
  lemma StatsXorEmpty(s: HomeState)
    requires Render(s).Content?
    ensures Render(s).stats.Some? != Render(s).emptyState
  {
  }

  /** The page starts on the spinner, and its first fetch replaces the empty
      list or keeps it with an error. */
  lemma InitialPage(outcome: FetchOutcome)
    ensures Render(Init()) == Spinner
    ensures var s := Fetch(Init(), outcome);
      s.error.None? || (s.lists == [] && Render(s).ErrorPanel?)
  {
  }

  /** A fetch never leaves the spinner on, and the page then shows the
      error panel exactly when the fetch failed. */
  lemma FetchSettles(s: HomeState, outcome: FetchOutcome)
    ensures !Render(Fetch(s, outcome)).Spinner?
    ensures Render(Fetch(s, outcome)).ErrorPanel? <==> Fetch(s, outcome).error.Some?
  {
  }

  /** "Try Again" from the error panel shows the previous lists while the
      new fetch is pending, since loading is not switched back on. */
  lemma RetryShowsContent(s: HomeState)
    requires Render(s).ErrorPanel?
    ensures Render(BeginFetch(s)) == Render(s.(error := None))
    ensures Render(BeginFetch(s)).Content? && Render(BeginFetch(s)).cards == s.lists
  {
  }

  // ---------------------------------------------------------------------
  // the page against the server
  // ---------------------------------------------------------------------

  /** The reply the list handler gives the page's request. */
  function ServerReply(st: ListRoute.Store, fault: Option<ListRoute.Fault>): Envelope<seq<GroceryList>> {
    var r := ListRoute.Get(st, Client.ServerParams(FetchRequest()), fault);
    Client.HandleApiResponse(r.status, r.body)
  }

  /** The handler reads the page's request as asking for items. */
  lemma FetchRequestIncludesItems()
    ensures ListRoute.IncludeItems(Client.ServerParams(FetchRequest()))
  {
    Client.ListsGetAllQuery(Some(true));
  }

  /** Against a working store the page ends up listing every stored list,
      with its items, in ascending id order, and no error. */
  lemma LoadedPageListsStore(st: ListRoute.Store, s: HomeState)
    ensures var s' := Fetch(s, Replied(ServerReply(st, None)));
      && s'.error.None?
      && ListRoute.IsListing(st, true, s'.lists)
      && (forall l :: l in s'.lists ==> l.items.Some?)
      && Render(s').Content?
  {
    FetchRequestIncludesItems();
    var s' := Fetch(s, Replied(ServerReply(st, None)));
    forall l | l in s'.lists ensures l.items.Some? {
      var row :| row in st.rows && l == ListRoute.View(row, true);
    }
  }

  /** When the store fails, the page keeps the lists it had and shows the
      handler's message. */
  lemma FailedFetchKeepsLists(st: ListRoute.Store, s: HomeState, f: ListRoute.Fault)
    ensures var s' := Fetch(s, Replied(ServerReply(st, Some(f))));
      && s'.lists == s.lists
      && s'.error == Some(FetchFailed)
      && Render(s') == ErrorPanel(FetchFailed)
  {
  }
}

=== FILE: list_route.dfy ===
/** The list collection handler (app/api/grocery_list/route.ts): `GET` lists
    every grocery list in ascending id order, `POST` validates a name and
    creates a list. The database is an abstract store of `(id, name, items)`
    rows with an auto-increment counter; a failing database call or body
    parse is an explicit `Fault` argument. */
module ListRoute {
  import opened Base
  import opened Grocery
  import Text
  import FormUrl

  /** A decoded JSON value (the request body). */
  datatype Json =
    | JNull
    | JBool(b: bool)
    | JNumber(x: real)
    | JString(s: string)
    | JArray(elems: seq<Json>)
    | JObject(fields: map<string, Json>)

  /** A property read from the body: `undefined` or a JSON value. */
  datatype Field = Undefined | Defined(value: Json)

  /** What a failing `await` threw: an `Error` with its message, or a value
      that is not an `Error`. */
  datatype Fault = ErrorObject(message: string) | OtherValue

  /** A stored list row and the store itself. */
  datatype StoredList = StoredList(id: int, name: string, items: seq<GroceryItem>)
  datatype Store = Store(rows: seq<StoredList>, nextId: int)

  /** A handler's reply together with the store it leaves behind. */
  datatype Handled<T> = Handled(response: Response<T>, store: Store)

  /** Primary keys are unique and below the auto-increment counter. */
  predicate Valid(st: Store) {
    && DistinctIds(st.rows)
    && forall i :: 0 <= i < |st.rows| ==> st.rows[i].id < st.nextId
  }

  predicate DistinctIds(rows: seq<StoredList>) {
    forall i, j :: 0 <= i < j < |rows| ==> rows[i].id != rows[j].id
  }

  const FetchFailed := "Failed to fetch grocery lists"
  const CreateFailed := "Failed to create grocery list"
  const NameRequired := "Name is required and must be a string"
  const Created := "Grocery list created successfully"

  /** The diagnostic `error` field: the message of an `Error`, otherwise
      "Unknown error". */
  function ErrorText(f: Fault): string {
    match f
    case ErrorObject(m) => m
    case OtherValue => "Unknown error"
  }

  /** The catch-all reply of both handlers. */
  function Failed<T>(message: string, f: Fault): Response<T> {
    Response(500, Envelope(false, Some(message), None, None, Some(ErrorText(f))))
  }

  // ---------------------------------------------------------------------
  // GET
  // ---------------------------------------------------------------------

  /** Whether the first `include_items` parameter is exactly the text "true". */
  function IncludeItems(query: seq<FormUrl.Param>): bool {
    FormUrl.Get(query, "include_items") == Some("true")
  }

  /** A stored row as returned by the listing, with or without its items. */
  function View(row: StoredList, includeItems: bool): GroceryList {
    GroceryList(row.id, row.name, if includeItems then Some(row.items) else None)
  }

  function Views(rows: seq<StoredList>, includeItems: bool): (ls: seq<GroceryList>)
    ensures |ls| == |rows|
    ensures forall k :: 0 <= k < |rows| ==> ls[k] == View(rows[k], includeItems)
  {
    seq(|rows|, k requires 0 <= k < |rows| => View(rows[k], includeItems))
  }

  predicate Ascending(rows: seq<StoredList>) {
    forall i, j :: 0 <= i < j < |rows| ==> rows[i].id <= rows[j].id
  }

  /** One step of insertion sort on ids. */
  function Insert(x: StoredList, s: seq<StoredList>): (r: seq<StoredList>)
    requires Ascending(s)
    ensures Ascending(r)
    ensures multiset(r) == multiset(s) + multiset{x}
  {
    if |s| == 0 then [x]
    else if x.id <= s[0].id then [x] + s
    else
      var t := Insert(x, s[1..]);
      assert s == [s[0]] + s[1..];
      LowerBound(s[0], x, s[1..], t);
      [s[0]] + t
  }

  /** Every row of a permutation of `rest + [x]` has an id at least `low`'s,
      when `low` comes before `rest` in ascending order and below `x`. */
  lemma LowerBound(low: StoredList, x: StoredList, rest: seq<StoredList>, t: seq<StoredList>)
    requires Ascending([low] + rest) && low.id < x.id
    requires multiset(t) == multiset(rest) + multiset{x}
    ensures forall k :: 0 <= k < |t| ==> low.id <= t[k].id
  {
    forall k | 0 <= k < |t| ensures low.id <= t[k].id {
      assert t[k] in multiset(t);
      if t[k] != x {
        var j :| 0 <= j < |rest| && rest[j] == t[k];
        assert ([low] + rest)[0] == low && ([low] + rest)[j + 1] == rest[j];
      }
    }
  }

  /** The rows ordered by ascending id, as the listing asks the store: a
      permutation of them in which ids never decrease. */
  function SortById(rows: seq<StoredList>): (r: seq<StoredList>)
    ensures Ascending(r)
    ensures multiset(r) == multiset(rows)
  {
    if |rows| == 0 then []
    else
      assert rows == [rows[0]] + rows[1..];
      Insert(rows[0], SortById(rows[1..]))
  }

  /** A row that occurs twice in a sequence is counted twice by its multiset. */
  lemma {:induction false} RepeatedRow(s: seq<StoredList>, i: int, j: int)
    requires 0 <= i < j < |s| && s[i] == s[j]
    ensures multiset(s)[s[i]] >= 2
  {
    assert s == s[..j] + [s[j]] + s[j + 1..];
    assert s[i] in multiset(s[..j]) by { assert s[..j][i] == s[i]; }
  }

  /** With distinct ids no row occurs twice. */
  lemma {:induction false} DistinctRowsOnce(rows: seq<StoredList>, e: StoredList)
    requires DistinctIds(rows)
    ensures multiset(rows)[e] <= 1
  {
    if |rows| > 0 {
      assert rows == [rows[0]] + rows[1..];
      DistinctRowsOnce(rows[1..], e);
      if e == rows[0] {
        assert e !in rows[1..];
      }
    }
  }

  /** Sorting rows with distinct ids gives strictly ascending ids. */
  lemma SortedStrict(rows: seq<StoredList>, sorted: seq<StoredList>)
    requires DistinctIds(rows)
    requires Ascending(sorted) && multiset(sorted) == multiset(rows)
    ensures forall i, j :: 0 <= i < j < |sorted| ==> sorted[i].id < sorted[j].id
  {
    forall i, j | 0 <= i < j < |sorted| ensures sorted[i].id < sorted[j].id {
      if sorted[i] == sorted[j] {
        RepeatedRow(sorted, i, j);
        DistinctRowsOnce(rows, sorted[i]);
      } else {
        assert sorted[i] in multiset(rows) && sorted[j] in multiset(rows);
        var p :| 0 <= p < |rows| && rows[p] == sorted[i];
        var q :| 0 <= q < |rows| && rows[q] == sorted[j];
        assert p != q;
      }
    }
  }

  /** `ls` lists exactly the rows of `st`, as `View` shows them, in ascending
      id order, and in strictly ascending order when the store is valid. */
  predicate IsListing(st: Store, includeItems: bool, ls: seq<GroceryList>) {
    && |ls| == |st.rows|
    && multiset(ls) == multiset(Views(st.rows, includeItems))
    && (forall i, j :: 0 <= i < j < |ls| ==> ls[i].id <= ls[j].id)
    && (Valid(st) ==> forall i, j :: 0 <= i < j < |ls| ==> ls[i].id < ls[j].id)
    && (forall row :: row in st.rows ==> View(row, includeItems) in ls)
    && (forall l :: l in ls ==> exists row :: row in st.rows && l == View(row, includeItems))
  }

  lemma ViewsAppend(a: seq<StoredList>, b: seq<StoredList>, includeItems: bool)
    ensures Views(a + b, includeItems) == Views(a, includeItems) + Views(b, includeItems)
  {
  }

  /** Rearranging the rows rearranges their views the same way. */
  lemma {:induction false} ViewsPermute(a: seq<StoredList>, b: seq<StoredList>, includeItems: bool)
    requires multiset(a) == multiset(b)
    ensures multiset(Views(a, includeItems)) == multiset(Views(b, includeItems))
    decreases |a|
  {
    if |a| == 0 {
      assert |multiset(b)| == 0;
    } else {
      var x := a[0];
      assert x in multiset(b);
      var j :| 0 <= j < |b| && b[j] == x;
      var b' := b[..j] + b[j + 1..];
      assert b == b[..j] + [x] + b[j + 1..];
      assert multiset(b) == multiset(b') + multiset{x} by {
        assert multiset(b) == multiset(b[..j]) + multiset{x} + multiset(b[j + 1..]);
      }
      assert a == [x] + a[1..];
      assert multiset(a) == multiset{x} + multiset(a[1..]);
      assert multiset(a[1..]) == multiset(b') by {
        assert multiset(a[1..]) == multiset(a) - multiset{x};
        assert multiset(b') == multiset(b) - multiset{x};
      }
      ViewsPermute(a[1..], b', includeItems);
      ViewsAppend([x], a[1..], includeItems);
      ViewsAppend(b[..j] + [x], b[j + 1..], includeItems);
      ViewsAppend(b[..j], [x], includeItems);
      ViewsAppend(b[..j], b[j + 1..], includeItems);
    }
  }

  lemma ViewsOfPermutation(rows: seq<StoredList>, sorted: seq<StoredList>, includeItems: bool)
    requires multiset(sorted) == multiset(rows)
    ensures forall row :: row in rows ==> View(row, includeItems) in Views(sorted, includeItems)
    ensures forall l :: l in Views(sorted, includeItems) ==> exists row :: row in rows && l == View(row, includeItems)
  {
    var ls := Views(sorted, includeItems);
    forall row | row in rows ensures View(row, includeItems) in ls {
      assert row in multiset(sorted);
      var k :| 0 <= k < |sorted| && sorted[k] == row;
      assert ls[k] == View(row, includeItems);
    }
    forall l | l in ls ensures exists row :: row in rows && l == View(row, includeItems) {
      var k :| 0 <= k < |ls| && ls[k] == l;
      assert sorted[k] in multiset(rows);
    }
  }

  /** `prisma.groceryList.findMany` as the handler calls it. */
  function FindMany(st: Store, includeItems: bool): (ls: seq<GroceryList>)
    ensures IsListing(st, includeItems, ls)
  {
    var sorted := SortById(st.rows);
    var ls := Views(sorted, includeItems);
    ViewsOfPermutation(st.rows, sorted, includeItems);
    ViewsPermute(sorted, st.rows, includeItems);
    assert forall k :: 0 <= k < |ls| ==> ls[k].id == sorted[k].id;
    assert |sorted| == |st.rows| by {
      assert |multiset(sorted)| == |multiset(st.rows)|;
    }
    if Valid(st) then
      SortedStrict(st.rows, sorted);
      ls
    else
      ls
  }

  /** `GET /api/grocery_list`. */
  function Get(st: Store, query: seq<FormUrl.Param>, fault: Option<Fault>): (r: Response<seq<GroceryList>>)
    ensures r.body.success <==> fault.None?
    ensures fault.Some? ==> r.status == 500 && r.body.data.None? && r.body.message == Some(FetchFailed)
    ensures fault.None? ==> r.status == 200 && r.body.data.Some?
    ensures fault.None? ==> r.body.count == Some(|r.body.data.value|)
    ensures fault.None? ==> IsListing(st, IncludeItems(query), r.body.data.value)
  {
    match fault
    case Some(f) => Failed(FetchFailed, f)
    case None =>
      var ls := FindMany(st, IncludeItems(query));
      Response(200, Envelope(true, None, Some(ls), Some(|ls|), None))
  }

  /** Items are included exactly when the first `include_items` parameter is
      the text "true"; absence, "1", "TRUE", "" and the rest all mean false. */
  lemma IncludeItemsIff(query: seq<FormUrl.Param>)
    ensures IncludeItems(query) <==>
      exists k :: 0 <= k < |query| && query[k] == ("include_items", "true")
                  && FormUrl.FirstNamed(query, "include_items", k)
  {
    var r := FormUrl.Get(query, "include_items");
    if r.Some? {
      var k :| 0 <= k < |query| && query[k].0 == "include_items" && FormUrl.FirstNamed(query, "include_items", k) by {
        var k0 :| 0 <= k0 < |query| && query[k0].0 == "include_items";
        FirstOccurrence(query, "include_items", k0);
      }
      assert r == Some(query[k].1);
    }
  }

  /** Any parameter called `name` has a first one. */
  lemma FirstOccurrence(ps: seq<FormUrl.Param>, name: string, k: int)
    requires 0 <= k < |ps| && ps[k].0 == name
    ensures exists j :: 0 <= j < |ps| && ps[j].0 == name && FormUrl.FirstNamed(ps, name, j)
    decreases k
  {
    if !FormUrl.FirstNamed(ps, name, k) {
      var j :| 0 <= j < k && ps[j].0 == name;
      FirstOccurrence(ps, name, j);
    }
  }

  // ---------------------------------------------------------------------
  // POST
  // ---------------------------------------------------------------------

  /** Reading the `name` property of the body: for `null` the destructuring
      throws a TypeError, any other non-object value has no such property. */
  function NameOf(body: Json): Result<Field, Fault> {
    match body
    case JNull => Failure(ErrorObject("Cannot destructure property 'name' of 'body' as it is null."))
    case JObject(fields) => Success(if "name" in fields then Defined(fields["name"]) else Undefined)
    case _ => Success(Undefined)
  }

  /** JavaScript falsiness of a property value. */
  predicate Falsy(f: Field) {
    match f
    case Undefined => true
    case Defined(JNull) => true
    case Defined(JBool(b)) => !b
    case Defined(JNumber(x)) => x == 0.0
    case Defined(JString(s)) => s == ""
    case Defined(_) => false
  }

  /** The name guard: a falsy name, or one that is not a string, is refused. */
  predicate NameRejected(f: Field) {
    Falsy(f) || !(f.Defined? && f.value.JString?)
  }

  /** The guard lets through exactly the non-empty strings; blank-after-trim
      strings are not rejected. */
  lemma NameAcceptedIff(f: Field)
    ensures !NameRejected(f) <==> f.Defined? && f.value.JString? && f.value.s != ""
  {
  }

  /** The ids of the stored lists. */
  predicate HasId(rows: seq<StoredList>, id: int) {
    exists k :: 0 <= k < |rows| && rows[k].id == id
  }

  /** `prisma.groceryList.create`: a new row with the next auto-increment id
      and no items, appended after the existing rows. */
  function Create(st: Store, name: string): (h: Handled<GroceryList>)
    ensures |h.store.rows| == |st.rows| + 1
    ensures h.store.rows[..|st.rows|] == st.rows
    ensures h.store.rows[|st.rows|] == StoredList(st.nextId, name, [])
    ensures h.store.nextId > st.nextId
    ensures Valid(st) ==> Valid(h.store) && !HasId(st.rows, st.nextId)
  {
    var row := StoredList(st.nextId, name, []);
    var st' := Store(st.rows + [row], st.nextId + 1);
    assert st'.rows[..|st.rows|] == st.rows;
    Handled(Response(201, Envelope(true, Some(Created), Some(View(row, true)), None, None)), st')
  }

  /** `POST /api/grocery_list` with the outcome of `request.json()` and the
      fault, if any, of the `create` call. */
  function Post(st: Store, body: Result<Json, Fault>, fault: Option<Fault>): (h: Handled<GroceryList>)
    ensures h.response.status in {201, 400, 500}
    ensures h.response.body.success <==> h.response.status == 201
    ensures h.response.status != 201 ==> h.store == st && h.response.body.data.None?
    ensures h.response.status == 201 ==>
      && |h.store.rows| == |st.rows| + 1
      && h.store.rows[..|st.rows|] == st.rows
      && h.store.rows[|st.rows|].id == st.nextId
      && Text.Trimmed(h.store.rows[|st.rows|].name)
      && h.store.rows[|st.rows|].items == []
      && h.response.body.data == Some(View(h.store.rows[|st.rows|], true))
    ensures Valid(st) ==> Valid(h.store)
  {
    match body
    case Failure(e) => Handled(Failed(CreateFailed, e), st)
    case Success(json) =>
      match NameOf(json)
      case Failure(e) => Handled(Failed(CreateFailed, e), st)
      case Success(field) =>
        if NameRejected(field) then
          Handled(Response(400, Envelope(false, Some(NameRequired), None, None, None)), st)
        else if fault.Some? then
          Handled(Failed(CreateFailed, fault.value), st)
        else
          Create(st, Text.Trim(field.value.s))
  }

  /** The reply to a body that parsed, by the shape of the body: 400 exactly
      when the name guard rejects it, 201 exactly for a non-empty string name
      and a working store, 500 otherwise. */
  lemma PostOutcomes(st: Store, json: Json, fault: Option<Fault>)
    ensures var h := Post(st, Success(json), fault);
      && (h.response.status == 400 <==> NameOf(json).Success? && NameRejected(NameOf(json).value))
      && (h.response.status == 201 <==>
            && json.JObject? && "name" in json.fields
            && json.fields["name"].JString? && json.fields["name"].s != ""
            && fault.None?)
      && (h.response.status == 400 ==> h.response.body.message == Some(NameRequired))
      && (h.response.status == 500 ==> h.response.body.message == Some(CreateFailed))
      && (h.response.status == 201 ==> h.response.body.message == Some(Created))
      && (fault.Some? ==> !h.response.body.success && h.store == st)
  {
    match NameOf(json)
    case Failure(_) =>
    case Success(field) =>
      NameAcceptedIff(field);
  }

  /** A `null` body fails the destructuring and gets a 500 whose `error`
      is the TypeError's message. */
  lemma PostNullBody(st: Store, fault: Option<Fault>)
    ensures var h := Post(st, Success(JNull), fault);
      && h.response.status == 500
      && h.response.body.message == Some(CreateFailed)
      && h.response.body.error == Some("Cannot destructure property 'name' of 'body' as it is null.")
      && h.store == st
  {
  }

  /** A created list stores the trimmed name under the next id. A name made
      only of whitespace passes the guard and is stored as the empty string. */
  lemma PostStoresTrimmed(st: Store, json: Json)
    requires json.JObject? && "name" in json.fields
    requires json.fields["name"].JString? && json.fields["name"].s != ""
    ensures var name := json.fields["name"].s;
      var h := Post(st, Success(json), None);
      && h.response.status == 201
      && h.store.rows[|st.rows|] == StoredList(st.nextId, Text.Trim(name), [])
      && (h.store.rows[|st.rows|].name == "" <==> Text.AllSpace(name))
  {
    var name := json.fields["name"].s;
    assert NameOf(json) == Success(Defined(JString(name)));
    assert !NameRejected(Defined(JString(name)));
    assert Post(st, Success(json), None) == Create(st, Text.Trim(name));
    Text.TrimEmptyIffAllSpace(name);
  }

  /** In a strictly ordered listing, a row whose id is the largest is shown
      last. */
  lemma LargestListedLast(st: Store, inc: bool, ls: seq<GroceryList>, top: StoredList)
    requires Valid(st) && IsListing(st, inc, ls)
    requires top in st.rows
    requires forall row :: row in st.rows ==> row.id <= top.id
    ensures |ls| > 0 && ls[|ls| - 1] == View(top, inc)
  {
    var k :| 0 <= k < |ls| && ls[k] == View(top, inc);
    var last := ls[|ls| - 1];
    assert last in ls;
    var row :| row in st.rows && last == View(row, inc);
    assert last.id <= ls[k].id;
  }

  /** After a successful create in a valid store, the listing shows the new
      list last, one entry longer than before. */
  lemma CreatedListListedLast(st: Store, body: Result<Json, Fault>, query: seq<FormUrl.Param>)
    requires Valid(st)
    ensures var h := Post(st, body, None);
      h.response.status == 201 ==>
        var ls := Get(h.store, query, None).body.data.value;
        && |ls| == |st.rows| + 1
        && ls[|ls| - 1] == View(h.store.rows[|st.rows|], IncludeItems(query))
  {
    var h := Post(st, body, None);
    if h.response.status == 201 {
      var rows := h.store.rows;
      var added := rows[|st.rows|];
      forall row | row in rows ensures row.id <= added.id {
        var p :| 0 <= p < |rows| && rows[p] == row;
        if p < |st.rows| {
          assert row == st.rows[p];
        }
      }
      LargestListedLast(h.store, IncludeItems(query), Get(h.store, query, None).body.data.value, added);
    }
  }
}

=== FILE: text.dfy ===
/** The JavaScript string operations the grocery app relies on:
    `String.prototype.trim`, integer-to-decimal conversion, and
    `Array.prototype.join` / `String.prototype.split` on one separator. */
module Text {
  import opened Base

  // ---------------------------------------------------------------------
  // trim
  // ---------------------------------------------------------------------

  /** The code points ECMAScript's `trim` strips: WhiteSpace (tab, vertical
      tab, form feed, space, no-break space, byte order mark and the Unicode
      space separators) and LineTerminator (LF, CR, LS, PS). */
  predicate IsSpace(c: char) {
    || c == '\t' || c == '\n' || c == '\U{000B}' || c == '\U{000C}' || c == '\r'
    || c == ' ' || c == '\U{00A0}' || c == '\U{1680}'
    || ('\U{2000}' <= c <= '\U{200A}')
    || c == '\U{2028}' || c == '\U{2029}' || c == '\U{202F}' || c == '\U{205F}'
    || c == '\U{3000}' || c == '\U{FEFF}'
  }

  /** Every position in `lo..hi` of `s` holds whitespace. */
  predicate SpaceBetween(s: string, lo: int, hi: int)
    requires 0 <= lo <= hi <= |s|
  {
    forall p :: lo <= p < hi ==> IsSpace(s[p])
  }

  predicate AllSpace(s: string) {
    SpaceBetween(s, 0, |s|)
  }

  /** Neither end of `s` is whitespace. */
  predicate Trimmed(s: string) {
    |s| == 0 || (!IsSpace(s[0]) && !IsSpace(s[|s| - 1]))
  }

  /** `r` sits in `s` at offset `i` with only whitespace before and after it. */
  predicate StripsTo(s: string, r: string, i: int) {
    && 0 <= i && i + |r| <= |s|
    && s[i..i + |r|] == r
    && SpaceBetween(s, 0, i)
    && SpaceBetween(s, i + |r|, |s|)
  }

  function TrimStart(s: string): (r: string)
    ensures |r| <= |s| && r == s[|s| - |r|..]
    ensures SpaceBetween(s, 0, |s| - |r|)
    ensures |r| == 0 || !IsSpace(r[0])
    decreases |s|
  {
    if |s| > 0 && IsSpace(s[0]) then TrimStart(s[1..]) else s
  }

  function TrimEnd(s: string): (r: string)
    ensures |r| <= |s| && r == s[..|r|]
    ensures SpaceBetween(s, |r|, |s|)
    ensures |r| == 0 || !IsSpace(r[|r| - 1])
    decreases |s|
  {
    if |s| > 0 && IsSpace(s[|s| - 1]) then TrimEnd(s[..|s| - 1]) else s
  }

  /** `s.trim()`: the infix of `s` left after removing leading and trailing
      whitespace. */
  function Trim(s: string): (r: string)
    ensures Trimmed(r)
    ensures exists i :: StripsTo(s, r, i)
  {
    var t := TrimStart(s);
    var r := TrimEnd(t);
    TrimParts(s, t, r);
    r
  }

  /** Gluing the two halves of a trim together: what `TrimStart` and
      `TrimEnd` promise makes their composition a trim of `s`. */
  lemma TrimParts(s: string, t: string, r: string)
    requires |t| <= |s| && t == s[|s| - |t|..] && SpaceBetween(s, 0, |s| - |t|)
    requires |t| == 0 || !IsSpace(t[0])
    requires |r| <= |t| && r == t[..|r|] && SpaceBetween(t, |r|, |t|)
    requires |r| == 0 || !IsSpace(r[|r| - 1])
    ensures Trimmed(r)
    ensures StripsTo(s, r, |s| - |t|)
  {
    var i := |s| - |t|;
    assert |r| > 0 ==> r[0] == t[0];
    forall q | 0 <= q < |r| ensures s[i..i + |r|][q] == r[q] {
      assert s[i + q] == t[q];
    }
    assert s[i..i + |r|] == r;
    forall p | i + |r| <= p < |s| ensures IsSpace(s[p]) {
      assert s[p] == t[p - i];
    }
  }

  /** Trim is characterised by its two postconditions: any infix whose ends
      are not whitespace and that has only whitespace around it is the trim. */
  lemma TrimUnique(s: string, r: string, i: int)
    requires Trimmed(r) && StripsTo(s, r, i)
    ensures r == Trim(s)
  {
    var t := Trim(s);
    var k :| StripsTo(s, t, k);
    if |r| == 0 {
      assert AllSpace(s);
    } else {
      assert r[0] == s[i] && r[|r| - 1] == s[i + |r| - 1];
      assert |t| > 0;
      assert t[0] == s[k] && t[|t| - 1] == s[k + |t| - 1];
      assert i == k && |r| == |t|;
    }
  }

  /** Trimming twice is trimming once. */
  lemma TrimIdempotent(s: string)
    ensures Trim(Trim(s)) == Trim(s)
  {
    var t := Trim(s);
    assert StripsTo(t, t, 0) by { assert t[0..|t|] == t; }
    TrimUnique(t, t, 0);
  }

  /** The trim is empty exactly when the string is all whitespace. */
  lemma TrimEmptyIffAllSpace(s: string)
    ensures Trim(s) == "" <==> AllSpace(s)
  {
    var t := Trim(s);
    if AllSpace(s) {
      assert StripsTo(s, "", 0);
      TrimUnique(s, "", 0);
    }
  }

  // ---------------------------------------------------------------------
  // decimal notation of integers (`String(n)` for an integral number)
  // ---------------------------------------------------------------------

  predicate IsDigit(c: char) {
    '0' <= c <= '9'
  }

  predicate AllDigits(s: string) {
    forall k :: 0 <= k < |s| ==> IsDigit(s[k])
  }

  function DigitChar(d: nat): (c: char)
    requires d < 10
    ensures IsDigit(c)
  {
    (48 + d) as char
  }

  function DigitValue(c: char): (d: nat)
    requires IsDigit(c)
    ensures d < 10 && DigitChar(d) == c
  {
    (c as int) - 48
  }

  /** Decimal digits of `n`, most significant first, without leading zeros. */
  function ShowNat(n: nat): (r: string)
    ensures |r| > 0 && AllDigits(r)
    ensures (r[0] == '0') == (n == 0)
  {
    if n < 10 then [DigitChar(n)] else ShowNat(n / 10) + [DigitChar(n % 10)]
  }

  /** `String(n)`: a minus sign for negative numbers, then the digits. */
  function ShowInt(n: int): (r: string)
    ensures |r| > 0
    ensures forall k :: 0 <= k < |r| ==> IsDigit(r[k]) || (k == 0 && r[k] == '-')
    ensures (r[0] == '-') == (n < 0)
  {
    if n < 0 then "-" + ShowNat(-n) else ShowNat(n)
  }

  /** Value of a non-empty digit string (the reading `parseInt` gives it). */
  function ParseNat(s: string): nat
    requires |s| > 0 && AllDigits(s)
  {
    if |s| == 1 then DigitValue(s[0])
    else 10 * ParseNat(s[..|s| - 1]) + DigitValue(s[|s| - 1])
  }

  /** Strict decimal reading: an optional minus sign and at least one digit. */
  function ParseInt(s: string): Option<int> {
    if |s| > 1 && s[0] == '-' && AllDigits(s[1..]) then var v: int := ParseNat(s[1..]); Some(-v)
    else if |s| > 0 && AllDigits(s) then Some(ParseNat(s))
    else None
  }

  lemma {:induction false} ParseShowNat(n: nat)
    ensures ParseNat(ShowNat(n)) == n
  {
    if n >= 10 {
      var s := ShowNat(n);
      assert s[..|s| - 1] == ShowNat(n / 10);
      ParseShowNat(n / 10);
    }
  }

  /** Reading back the decimal text of an integer gives the integer. */
  lemma ParseShowInt(n: int)
    ensures ParseInt(ShowInt(n)) == Some(n)
  {
    if n < 0 {
      assert ShowInt(n)[1..] == ShowNat(-n);
      ParseShowNat(-n);
    } else {
      ParseShowNat(n);
    }
  }

  // ---------------------------------------------------------------------
  // join and split on a single separator character
  // ---------------------------------------------------------------------

  /** `xs.join(sep)`. */
  function Join(xs: seq<string>, sep: char): string {
    if |xs| == 0 then ""
    else if |xs| == 1 then xs[0]
    else xs[0] + [sep] + Join(xs[1..], sep)
  }

  /** `s.split(sep)`: the maximal separator-free pieces, in order; the empty
      string splits into one empty piece. */
  function Split(s: string, sep: char): (r: seq<string>)
    ensures |r| >= 1
    ensures forall k :: 0 <= k < |r| ==> sep !in r[k]
  {
    if |s| == 0 then [""]
    else
      var rest := Split(s[1..], sep);
      if s[0] == sep then [""] + rest
      else [[s[0]] + rest[0]] + rest[1..]
  }

  lemma {:induction false} SplitNoSep(a: string, sep: char)
    requires sep !in a
    ensures Split(a, sep) == [a]
  {
    if |a| > 0 {
      SplitNoSep(a[1..], sep);
      assert [a[0]] + a[1..] == a;
    }
  }

  lemma {:induction false} SplitAt(a: string, b: string, sep: char)
    requires sep !in a
    ensures Split(a + [sep] + b, sep) == [a] + Split(b, sep)
  {
    var s := a + [sep] + b;
    if |a| == 0 {
      assert s[1..] == b;
    } else {
      assert s[1..] == a[1..] + [sep] + b;
      SplitAt(a[1..], b, sep);
      assert [a[0]] + a[1..] == a;
    }
  }

  /** Splitting a join of separator-free pieces gives the pieces back. */
  lemma {:induction false} SplitJoin(xs: seq<string>, sep: char)
    requires |xs| >= 1
    requires forall k :: 0 <= k < |xs| ==> sep !in xs[k]
    ensures Split(Join(xs, sep), sep) == xs
  {
    if |xs| == 1 {
      SplitNoSep(xs[0], sep);
    } else {
      SplitAt(xs[0], Join(xs[1..], sep), sep);
      SplitJoin(xs[1..], sep);
      assert [xs[0]] + xs[1..] == xs;
    }
  }

  /** Joining the pieces of a split gives the string back. */
  lemma {:induction false} JoinSplit(s: string, sep: char)
    ensures Join(Split(s, sep), sep) == s
  {
    if |s| > 0 {
      var rest := Split(s[1..], sep);
      JoinSplit(s[1..], sep);
      if s[0] == sep {
        assert ([""] + rest)[1..] == rest;
      } else {
        var r := [[s[0]] + rest[0]] + rest[1..];
        if |rest| > 1 {
          assert r[1..] == rest[1..];
        }
        assert [s[0]] + s[1..] == s;
      }
    }
  }

  /** A character that is neither the separator nor in any piece is not in
      the join. */
  lemma {:induction false} JoinAvoids(xs: seq<string>, sep: char, c: char)
    requires c != sep
    requires forall k :: 0 <= k < |xs| ==> c !in xs[k]
    ensures c !in Join(xs, sep)
  {
    if |xs| > 1 {
      JoinAvoids(xs[1..], sep, c);
    }
  }
}
